=== FILE: README.md ===
# A verified model of Ansible's `live` stdout callback

The `live` callback (`lib/ansible/plugins/callback/live.py`) is the stdout
plugin of Ansible's "solo mode". It turns playbook events into console
lines: a `started` banner per task, a `SUCCESS`/`FAILED` report per host,
the captured stdout and stderr of free-form commands (`raw`, `script`,
`command`, `shell`), the message and variable of `debug` tasks, and, on
every failure, a configuration block read from a file named by an
environment variable.

The model is written in Dafny and has seven modules:

- `Data`: the values the callback receives. These are JSON-like result
  values, tasks, plays and per-host task results.
- `Strings`: the few Python string operations the callback relies on.
  `'%s' % i` of an integer is `IntToString`, a canonical numeral proved to
  round-trip.
  The `in` operator is `PyIn`, whose substring half is proved equal to an
  index-based definition.
- `Sink`: the leveled output sink (the engine's display object). It is an
  append-only log of records `(text, colour, minimal verbosity)`. `Shown`
  is what a sink at a given verbosity writes. The verbosity gates are
  `display()` 0, `v()` 1, `vvv()` 3 and `vvvvvv()` 6.
- `Labels`: the task labeler `_task_header` and its 25/22 truncation rule.
- `Abridge`: `_dump_results`. This module holds the abridged dictionary as a
  specification function, the dump it produces, and the method that
  performs the source's in-place key deletions on a copy.
- `Render`: for each display helper and event handler, the exact sequence
  of records it writes. Lemmas state what each sequence contains and what a
  quiet sink shows of it.
- `Live`: the callback object itself. It is a class whose field `play` is
  set on every play start and whose field `log` every handler appends to.
  Each method's postcondition is the record sequence from `Render`.

The sink's verbosity is a constant of the object. The inherited
collaborators `_clean_results`, `_handle_warnings`, `_handle_exception`,
`_command_generic_msg` and `_get_diff` are function-valued constants of the
object. `C.MODULE_NO_JSON` is a constant set. `_read_dump_config_doc` takes
the process environment and the readable files (path to content) as
parameters.

Where the source would raise, the model has a precondition instead:

- `Labelable`: an unnamed free-form task has `_raw_params`, and it is a
  string (a missing key raises; another kind of value is not modelled).
- `TaskStartPossible`: a play was started before a non-debug task starts.
- `DebugRenderable`: a debug `var` is hashable.
- `FailedRenderable` and `OkRenderable`: these combine the predicates above
  for the paths that label the task.

The command `echo hello world foobar baz` (27 characters) is labelled
`echo hello world fooba...` (`Labels.TruncateExample`).

The debug formatter's test for an undefined variable raises on an integer,
boolean or None value; the model uses a total version of that test, which
agrees with the source's wherever the source's does not raise (see
"## Findings").

## Model

| member | source | states |
|---|---|---|
| Data.Truthy | lib/ansible/plugins/callback/live.py:60 | Python truthiness as in `if not result.get('live_stdout', False)` and the other `if x:` tests: None, False, 0, the empty string, list and dict are false, everything else is true |
| Data.Get | lib/ansible/plugins/callback/live.py:58 | `d.get(key, default)`: the stored value when the key is present, the default otherwise |
| Strings.IntToString | lib/ansible/plugins/callback/live.py:58 | `'%s' % rc` of an integer is an optionally signed decimal numeral, negative exactly when the integer is, with no leading zero |
| Strings.IntRoundTrip | lib/ansible/plugins/callback/live.py:58 | the numeral written for an integer reads back as that integer, so `rc=-1` and any other return code are rendered faithfully |
| Strings.IsSubstringIff | lib/ansible/plugins/callback/live.py:77 | Python's substring test `'IS NOT DEFINED' in text` holds exactly when the needle occurs at some index of the text |
| Strings.PyIn | lib/ansible/plugins/callback/live.py:77 | Python's `needle in v`: substring on a string, element equality on a list, key membership on a dict; defined only on those three kinds |
| Sink.Show | lib/ansible/plugins/callback/live.py:58 | `'%s' % v` as used for the return code (and the variable name at line 75): `None`, `True`/`False`, a string verbatim, an integer as its canonical numeral (`IntToString`, no leading zero) that parses back to it, a list or dict as its (unmodelled) `str()` |
| Sink.Displayed | lib/ansible/plugins/callback/live.py:62 | a value handed to `display()` without formatting: a string is written as it is, any other value reaches the display object unchanged |
| Sink.Shown | lib/ansible/plugins/callback/live.py:132-133 | what a sink at a given verbosity writes: exactly the records whose gate it reaches, in order |
| Sink.ShownAppend | lib/ansible/plugins/callback/live.py:132-139 | what a sink shows of two successive writes is what it shows of each, in order |
| Sink.ShownMonotone | lib/ansible/plugins/callback/live.py:132-133 | a quieter sink shows exactly the louder sink's output filtered again at its own verbosity |
| Labels.Truncate | lib/ansible/plugins/callback/live.py:50-51 | the name is unchanged iff the params have at most 25 characters; otherwise it is their first 22 characters then `...`, 25 in all |
| Labels.TruncateIdempotent | lib/ansible/plugins/callback/live.py:50-51 | a truncated name is never truncated again |
| Labels.TaskName | lib/ansible/plugins/callback/live.py:46-51 | the declared name if there is one; else the truncated raw params of a free-form task; else the empty name |
| Labels.TaskHeader | lib/ansible/plugins/callback/live.py:45-53 | the label is the action, ` [`, the name, `] `, then the message, each readable back at its position |
| Labels.NamedTaskHeader | lib/ansible/plugins/callback/live.py:45-53 | a non-empty declared name is used verbatim, whatever the action |
| Labels.FreeFormTaskHeader | lib/ansible/plugins/callback/live.py:45-53 | an unnamed free-form task is labelled with its raw params under the 25/22 rule, so its name never exceeds 25 characters |
| Labels.TruncateExample | lib/ansible/plugins/callback/live.py:50-51 | `echo hello world foobar baz` is labelled `echo hello world fooba...` |
| Abridge.StripInternalKeys | lib/ansible/plugins/callback/live.py:93-94 | exactly the keys not starting with `_ansible_` are kept, with their values |
| Abridge.Abridged | lib/ansible/plugins/callback/live.py:94-114 | the dumped dictionary never holds `exception`, `msg`, `failed`, `changed` or an internal key; every other key keeps its value; `invocation` is kept iff requested or verbosity >= 3; `diff` iff verbosity >= 3 |
| Abridge.DumpIndent | lib/ansible/plugins/callback/live.py:90-91 | the indent becomes 4 iff none (or 0) was given and the result is always-verbose or verbosity > 2; otherwise it is unchanged |
| Abridge.DumpOf | lib/ansible/plugins/callback/live.py:116-119 | the dump is empty iff the abridged dictionary is empty; otherwise it is one JSON dump of it with the chosen indent |
| Abridge.DumpResults | lib/ansible/plugins/callback/live.py:88-119 | the method computes exactly `DumpOf` of its arguments |
| Abridge.AbridgeCopy | lib/ansible/plugins/callback/live.py:94-114 | the source's sequence of deletions on the stripped copy yields exactly the abridged dictionary |
| Abridge.Delete | lib/ansible/plugins/callback/live.py:98 | deleting a present key removes it and nothing else from the copy |
| Abridge.DeleteIfPresent | lib/ansible/plugins/callback/live.py:105-106 | after the guarded deletion the key is absent and nothing else was removed |
| Abridge.NoiseOnlyDumpsEmpty | lib/ansible/plugins/callback/live.py:104-119 | a result holding only always-dropped and internal keys dumps to the empty text at every verbosity |
| Abridge.AbridgedMonotone | lib/ansible/plugins/callback/live.py:96-102 | raising the verbosity only adds keys to the dump, and only `invocation` and `diff` |
| Render.RcLine | lib/ansible/plugins/callback/live.py:58 | the first command line is `<header> \| rc=<rc> >>`: the task header, then ` \| rc=`, the return code, then ` >>`, in the caller's colour, with `-1` when the result has no return code |
| Render.StdoutLines | lib/ansible/plugins/callback/live.py:60-62 | two lines, the highlighted `stdout was:` label then the uncoloured stdout, unless stdout was streamed live; none otherwise |
| Render.StderrLines | lib/ansible/plugins/callback/live.py:63-66 | two lines, the highlighted `stderr was:` label then stderr in the error colour, iff stderr is truthy |
| Render.CommandGenericLines | lib/ansible/plugins/callback/live.py:55-66 | the command report starts with the rc line (its full shape is `CommandGenericShape`) |
| Render.CommandGenericShape | lib/ansible/plugins/callback/live.py:55-66 | the command report is the rc line, then `stdout was:` and stdout iff stdout was not streamed live, then `stderr was:` and stderr in the error colour iff stderr is non-empty; all shown always |
| Render.VarLookup | lib/ansible/plugins/callback/live.py:76 | `result.get(var, '')`: the value under a string key that is present, `''` for any other key |
| Render.MarkedUndefined | lib/ansible/plugins/callback/live.py:77 | the undefined-variable test, total: the source's `in` test where that does not raise, the marker sought in the `'%s'` text otherwise |
| Render.MarkedUndefinedAgrees | lib/ansible/plugins/callback/live.py:77 | the total test equals the source's wherever the source's does not raise, and is false on None, booleans and integers |
| Render.NoMarkerInNumeral | lib/ansible/plugins/callback/live.py:77 | no decimal numeral contains `IS NOT DEFINED` |
| Render.IntVariableRaises | lib/ansible/plugins/callback/live.py:74-77 | a debug task whose variable holds the integer 5 is renderable, yet the source's `in` test is undefined on that value; the total test reports it defined |
| Render.DebugMsgLines | lib/ansible/plugins/callback/live.py:71-73 | two lines iff the task's `msg` argument is truthy: the highlighted `debug msg` label, then the result's `msg` (`''` when absent) in the ok colour, always shown |
| Render.DebugVarLines | lib/ansible/plugins/callback/live.py:74-82 | none if the task's `var` argument is falsy; otherwise the highlighted label `debug var '<var>'`, the `task path:` line once iff the variable is undefined and the path is non-empty, then the looked-up value: two or three lines |
| Render.DebugLines | lib/ansible/plugins/callback/live.py:69-84 | the message part, the variable part, then one more line: the result's JSON gated at `-v` |
| Render.DebugMsgShape | lib/ansible/plugins/callback/live.py:71-73 | the `debug msg` label appears iff the task has a truthy `msg`, followed by the result's message in the ok colour; its lines are always shown |
| Render.DebugVarShape | lib/ansible/plugins/callback/live.py:74-82 | lines appear iff the task has a truthy `var`; the value is last, in the error colour iff it reports `IS NOT DEFINED`, else ok; the task path line appears, once and second, iff undefined and the path is non-empty, so there are exactly two or three lines |
| Render.DebugShape | lib/ansible/plugins/callback/live.py:69-84 | the debug report ends with the result's JSON gated at `-v`; all earlier lines are always shown; message label, error colour and path line appear under the conditions above |
| Render.DebugShown | lib/ansible/plugins/callback/live.py:84 | a quiet sink shows the debug report without the result's JSON; from `-v` on the whole report |
| Render.ReadDumpConfigDoc | lib/ansible/plugins/callback/live.py:210-223 | the document is `''` when the variable is unset or its file unreadable, otherwise the file's content |
| Render.DappSection | lib/ansible/plugins/callback/live.py:226-233 | stage and section are the last two tags when there are at least two, else both empty |
| Render.DappConfigLine | lib/ansible/plugins/callback/live.py:234-235 | one always-shown debug-colour line: two newlines, the stage tag, a newline and `...`, the section tag, then a newline and the document, each readable back at its position; with fewer than two tags it is `\n\n\n...\n` and the document |
| Render.StartedBanner | lib/ansible/plugins/callback/live.py:139 | the banner is the task's label with `started`, highlighted and always shown |
| Render.TaskStartLines | lib/ansible/plugins/callback/live.py:131-139 | the two trace lines gated at `-vvv` and `-vvvvvv`, then the banner as a third line exactly when the task is not a debug task and the play's strategy is not `free` |
| Render.TaskStartShown | lib/ansible/plugins/callback/live.py:131-139 | below `-vvv` a task start shows nothing for a debug task or a free-strategy play, and exactly the highlighted `started` banner otherwise |
| Render.TaskStartVerbose | lib/ansible/plugins/callback/live.py:132-133 | from `-vvvvvv` on a task start shows both trace lines as well |
| Render.SuccessLine | lib/ansible/plugins/callback/live.py:155-160 | the host name, `SUCCESS =>` and the dump, shown always, in the changed colour iff `changed` is present and truthy, otherwise ok |
| Render.OkBodyLines | lib/ansible/plugins/callback/live.py:151-160 | never empty; a debug task's report is `DebugLines`, a free-form task's is the command report captioned `SUCCESS` in the ok colour, any other task's is exactly the success line |
| Render.RunnerOkLines | lib/ansible/plugins/callback/live.py:141-160 | the ok handler's output starts with its trace line gated at `-vvv`, followed by the body for the task's kind |
| Render.RunnerOkShown | lib/ansible/plugins/callback/live.py:141-160 | below `-vvv` the ok handler shows only the success line for a plain task, the full command report for a free-form task, and the debug report for a debug task |
| Render.LegacyFailure | lib/ansible/plugins/callback/live.py:172 | the legacy one-line failure message is used for an action known not to answer in JSON, unless it wrote `module_stderr` |
| Render.StructuredFailureLines | lib/ansible/plugins/callback/live.py:174-180 | the structured failure report (its shape is `StructuredFailureShape`) |
| Render.FailedBodyLines | lib/ansible/plugins/callback/live.py:170-180 | never empty; a free-form task's failure is the command report captioned `FAILED` in the error colour; on the legacy path exactly the inherited one-line message in the error colour; otherwise the structured failure report |
| Render.RunnerFailedLines | lib/ansible/plugins/callback/live.py:162-186 | the failure handler's output starts with its trace line, then the body for the task's kind, and always ends with the configuration block |
| Render.StructuredFailureShape | lib/ansible/plugins/callback/live.py:174-180 | the failure report is the `FAILED` header, the message iff there is one, and `Task result => <dump>` iff the dump is non-empty; all in the error colour |
| Render.RunnerFailedShown | lib/ansible/plugins/callback/live.py:162-186 | below `-vvv` the failure handler shows its report followed by the configuration block, which is always written |
| Render.UnreachableLine | lib/ansible/plugins/callback/live.py:191-192 | the host name, `UNREACHABLE! =>` and the dump of the raw result, in the unreachable colour |
| Render.FileDiffLines | lib/ansible/plugins/callback/live.py:206-208 | one uncoloured line with the rendered diff iff the result has a truthy `diff`, else nothing |
| Live.LiveCallback.constructor | lib/ansible/plugins/callback/live.py:41-43 | a new callback has no play and an empty log |
| Live.LiveCallback.DisplayCommandGenericMsg | lib/ansible/plugins/callback/live.py:55-66 | appends exactly the command report |
| Live.LiveCallback.DisplayStdout | lib/ansible/plugins/callback/live.py:59-62 | appends the stdout label and body unless stdout was streamed live |
| Live.LiveCallback.DisplayStderr | lib/ansible/plugins/callback/live.py:63-66 | appends the stderr label and body iff stderr is non-empty |
| Live.LiveCallback.DisplayDebugMsg | lib/ansible/plugins/callback/live.py:69-84 | appends exactly the debug report |
| Live.LiveCallback.DisplayDebugVar | lib/ansible/plugins/callback/live.py:74-82 | appends exactly the variable part of the debug report |
| Live.LiveCallback.DisplayDappConfig | lib/ansible/plugins/callback/live.py:225-235 | appends exactly the configuration block for the task's tags and the document read |
| Live.LiveCallback.PlayStart | lib/ansible/plugins/callback/live.py:121-122 | records the play and writes nothing |
| Live.LiveCallback.TaskStart | lib/ansible/plugins/callback/live.py:131-139 | appends exactly the task-start lines for the recorded play |
| Live.LiveCallback.OkResult | lib/ansible/plugins/callback/live.py:143-144 | the result the ok handler renders: the raw result after the inherited clean-up and warning handling |
| Live.LiveCallback.RunnerOk | lib/ansible/plugins/callback/live.py:141-160 | appends the trace line and then the report for the cleaned result, chosen by the kind of task |
| Live.LiveCallback.DisplayOkBody | lib/ansible/plugins/callback/live.py:151-160 | appends the debug report, the command report or the success line, by the kind of task |
| Live.LiveCallback.DisplaySuccess | lib/ansible/plugins/callback/live.py:155-160 | appends exactly the success line |
| Live.LiveCallback.FailedResult | lib/ansible/plugins/callback/live.py:165-166 | the result the failure handler renders: the raw result after the inherited exception and warning handling |
| Live.LiveCallback.RunnerFailed | lib/ansible/plugins/callback/live.py:162-186 | appends the trace line, the failure report for the handled result, then the configuration block |
| Live.LiveCallback.DisplayFailedBody | lib/ansible/plugins/callback/live.py:170-180 | appends the command report, the legacy one-line message or the structured report, by the kind of task |
| Live.LiveCallback.DisplayStructuredFailure | lib/ansible/plugins/callback/live.py:174-180 | appends exactly the structured failure report |
| Live.LiveCallback.RunnerSkipped | lib/ansible/plugins/callback/live.py:188-189 | appends the host name and `SKIPPED` in the skip colour |
| Live.LiveCallback.RunnerUnreachable | lib/ansible/plugins/callback/live.py:191-192 | appends exactly the unreachable line |
| Live.LiveCallback.FileDiff | lib/ansible/plugins/callback/live.py:206-208 | appends the rendered diff iff the result has a truthy `diff` |

## Left out

- Terminal output is not modelled. Colour escape codes and the display object's own filtering are left out; the sink is a log of records with a verbosity gate.
- `json.dumps` is not modelled: a dump is the dictionary with its indent, key-sorting and ASCII options.
- Python's `str()` of a list or a dictionary is not modelled either; it is kept as the value it renders.
- `strip_internal_keys` is modelled at the top level only: keys starting with `_ansible_` are removed. Its recursion into nested values is not part of this model, because `ansible/vars/manager.py` is not part of this model.
- The inherited `CallbackBase` methods `_clean_results`, `_handle_warnings`, `_handle_exception`, `_command_generic_msg` and `_get_diff` are given functions on the result. Their own display output and the fact that they change the result in place are not modelled.
- `_read_dump_config_doc` does not read the process environment or the file system. It is given both as maps, and any failure to read the file is modelled as "not readable".
- The item handlers `v2_runner_item_on_ok`, `v2_runner_item_on_failed` and `v2_runner_item_on_skipped` only delegate to the superclass, which is not part of this model.
- Paths on which the source raises are preconditions and not error results: a missing `_raw_params`, a task start with no play, and a debug `var` that is unhashable.
- Labels.TaskName: a `_raw_params` that is not a string (a list, say, which the source would label with its `str()`) is excluded by `Labelable` rather than modelled.
- Sink.Displayed: how the display object renders a non-string value handed to it (stdout, stderr, `msg` or a debug value) is not modelled; the value is kept as it is.
- Floating-point values in results are not modelled.
- The parameters `ignore_errors` of `v2_runner_on_failed` and `is_conditional` of `v2_playbook_on_task_start` are accepted and ignored, as in the source.

## Findings

| source | as written | input that shows it | evidently intended | confidence | as-written member | corrected member |
|---|---|---|---|---|---|---|
| lib/ansible/plugins/callback/live.py:77 | `'IS NOT DEFINED' in text` is evaluated on whatever value the variable holds, and Python raises TypeError for an integer, a boolean or None, so the exception escapes `v2_runner_on_ok` | a `debug` task with `var: x` whose result holds `x: 5` | the value is shown in the ok colour, as any defined variable | not executed; follows from Python's `in` semantics | Render.IntVariableRaises | Render.MarkedUndefinedAgrees |

=== FILE: abridge.dfy ===
/** The result abridger: which keys of a result survive into the JSON dump
    shown on screen, and with which indentation. */
module Abridge {
  import opened Data
  import opened Sink

  /** Result keys that start with this prefix are engine-internal. */
  const InternalPrefix: string := "_ansible_"

  predicate IsInternalKey(k: string) {
    |InternalPrefix| <= |k| && k[..|InternalPrefix|] == InternalPrefix
  }

  /** A key that does not start with an underscore is not internal. */
  lemma PublicKey(k: string)
    requires |k| > 0 && k[0] != '_'
    ensures !IsInternalKey(k)
  {
    if |InternalPrefix| <= |k| {
      assert k[..|InternalPrefix|][0] == k[0];
    }
  }

  /** Keys removed from every dump: they are shown separately or are
      redundant with the line that carries the dump. */
  const AlwaysDropped: set<string> := {"exception", "msg", "failed", "changed"}

  /** A copy of the result without its internal keys (top level only). */
  function StripInternalKeys(result: map<string, Value>): (clean: map<string, Value>)
    ensures forall k :: k in clean <==> k in result && !IsInternalKey(k)
    ensures forall k :: k in clean ==> clean[k] == result[k]
  {
    map k | k in result && !IsInternalKey(k) :: result[k]
  }

  /** Keys that the given verbosity and caller choice remove from the dump. */
  function Dropped(verbosity: nat, keepInvocation: bool): set<string> {
    AlwaysDropped
      + (if !keepInvocation && verbosity < 3 then {"invocation"} else {})
      + (if verbosity < 3 then {"diff"} else {})
  }

  /** The dictionary that is dumped: the stripped result minus the dropped
      keys. Its contents are characterised key by key. */
  function Abridged(result: map<string, Value>, verbosity: nat, keepInvocation: bool): (m: map<string, Value>)
    ensures forall k :: k in m ==> k in result && m[k] == result[k] && !IsInternalKey(k)
    ensures forall k :: k in AlwaysDropped ==> k !in m
    ensures forall k :: k in result && !IsInternalKey(k) && k !in AlwaysDropped && k != "invocation" && k != "diff" ==> k in m
    ensures "invocation" in m <==> "invocation" in result && (keepInvocation || verbosity >= 3)
    ensures "diff" in m <==> "diff" in result && verbosity >= 3
  {
    PublicKey("invocation");
    PublicKey("diff");
    StripInternalKeys(result) - Dropped(verbosity, keepInvocation)
  }

  /** The indentation actually used: a missing or zero indent becomes 4 when
      the result asks to be always verbose or the verbosity exceeds 2. */
  function DumpIndent(result: map<string, Value>, indent: Option<int>, verbosity: nat): (r: Option<int>)
    ensures r == indent || r == Some(4)
    ensures r != indent <==>
      (indent == None || indent == Some(0)) &&
      (Truthy(Get(result, "_ansible_verbose_always", Null)) || verbosity > 2)
  {
    if (indent == None || indent == Some(0)) &&
       (Truthy(Get(result, "_ansible_verbose_always", Null)) || verbosity > 2)
    then Some(4) else indent
  }

  /** What `_dump_results` returns, as text: empty exactly when nothing
      survives the abridging, otherwise one JSON dump of the abridged
      dictionary. */
  function DumpOf(result: map<string, Value>, indent: Option<int>, sortKeys: bool,
                  keepInvocation: bool, verbosity: nat): (t: Text)
    ensures t == [] <==> Abridged(result, verbosity, keepInvocation) == map[]
    ensures t != [] ==>
      t == [Json(Abridged(result, verbosity, keepInvocation), DumpIndent(result, indent, verbosity), sortKeys, false)]
  {
    var m := Abridged(result, verbosity, keepInvocation);
    if m == map[] then [] else [Json(m, DumpIndent(result, indent, verbosity), sortKeys, false)]
  }

  /** `_dump_results`: copies the result without internal keys, deletes the
      unwanted keys one by one from the copy and dumps what is left. Every
      deletion is of a key that is present, so none of them can fail. */
  method DumpResults(result: map<string, Value>, indent: Option<int>, sortKeys: bool,
                     keepInvocation: bool, verbosity: nat) returns (dump: Text)
    ensures dump == DumpOf(result, indent, sortKeys, keepInvocation, verbosity)
  {
    var ind := indent;
    if (ind == None || ind == Some(0)) &&
       (Truthy(Get(result, "_ansible_verbose_always", Null)) || verbosity > 2) {
      ind := Some(4);
    }

    var abridged := AbridgeCopy(result, keepInvocation, verbosity);
    if |abridged| > 0 {
      dump := [Json(abridged, ind, sortKeys, false)];
    } else {
      dump := [];
    }
  }

  /** The key deletions of `_dump_results`, in the source's order, on a
      copy of the result stripped of its internal keys. */
  method AbridgeCopy(result: map<string, Value>, keepInvocation: bool, verbosity: nat)
    returns (abridged: map<string, Value>)
    ensures abridged == Abridged(result, verbosity, keepInvocation)
  {
    abridged := StripInternalKeys(result);
    ghost var clean := abridged;
    // the keys deleted so far (or absent from the copy anyway)
    ghost var deleted: set<string> := {};

    if !keepInvocation && verbosity < 3 && "invocation" in result {
      PublicKey("invocation");
      abridged, deleted := Delete(abridged, "invocation", clean, deleted);
    }
    if verbosity < 3 && "diff" in result {
      PublicKey("diff");
      abridged, deleted := Delete(abridged, "diff", clean, deleted);
    }
    ghost var conditional := deleted;
    abridged, deleted := DeleteIfPresent(abridged, "exception", clean, deleted);
    abridged, deleted := DeleteIfPresent(abridged, "msg", clean, deleted);
    abridged, deleted := DeleteIfPresent(abridged, "failed", clean, deleted);
    abridged, deleted := DeleteIfPresent(abridged, "changed", clean, deleted);
    assert deleted == conditional + AlwaysDropped;

    SameRemoval(clean, deleted, Dropped(verbosity, keepInvocation));
  }

  /** `del d[k]` on the working copy, which must hold `k`; the ghost set of
      deleted keys grows by `k`. */
  method Delete(d: map<string, Value>, k: string, ghost clean: map<string, Value>, ghost deleted: set<string>)
    returns (d': map<string, Value>, ghost deleted': set<string>)
    requires k in d && d == clean - deleted
    ensures k !in d' && d' == clean - deleted' && deleted' == deleted + {k}
  {
    d' := d - {k};
    deleted' := deleted + {k};
  }

  /** `if k in d: del d[k]`; a key that was absent counts as deleted. */
  method DeleteIfPresent(d: map<string, Value>, k: string, ghost clean: map<string, Value>, ghost deleted: set<string>)
    returns (d': map<string, Value>, ghost deleted': set<string>)
    requires d == clean - deleted
    ensures k !in d' && d' == clean - deleted' && deleted' == deleted + {k}
  {
    if k in d {
      d', deleted' := Delete(d, k, clean, deleted);
    } else {
      d', deleted' := d, deleted + {k};
    }
  }

  /** Removing two key sets that agree on the keys present gives the same map. */
  lemma SameRemoval(clean: map<string, Value>, a: set<string>, b: set<string>)
    requires forall k :: k in clean ==> (k in a <==> k in b)
    ensures clean - a == clean - b
  {
  }

  /** Whatever the verbosity, a result holding only dropped and internal
      keys dumps to the empty text. */
  lemma NoiseOnlyDumpsEmpty(result: map<string, Value>, indent: Option<int>, sortKeys: bool,
                            keepInvocation: bool, verbosity: nat)
    requires forall k :: k in result ==> k in AlwaysDropped || IsInternalKey(k)
    ensures DumpOf(result, indent, sortKeys, keepInvocation, verbosity) == []
  {
    var m := Abridged(result, verbosity, keepInvocation);
    assert m.Keys == {};
  }

  /** Raising the verbosity can only add keys to the dump, and only
      `invocation` and `diff`. */
  lemma AbridgedMonotone(result: map<string, Value>, low: nat, high: nat, keepInvocation: bool)
    requires low <= high
    ensures Abridged(result, low, keepInvocation).Keys <= Abridged(result, high, keepInvocation).Keys
    ensures Abridged(result, high, keepInvocation).Keys - Abridged(result, low, keepInvocation).Keys
      <= {"invocation", "diff"}
  {
  }
}

=== FILE: data.dfy ===
/** Values the callback receives from the orchestration engine: result
    values (the JSON-like payload of a module result), tasks, plays and
    per-host task results. */
module Data {

  datatype Option<+T> = None | Some(value: T)

  /** A JSON-like value as it appears in a task's args or in a module result.
      Floating point numbers are not modelled. */
  datatype Value =
    | Null
    | Bool(b: bool)
    | Int(i: int)
    | Str(s: string)
    | List(items: seq<Value>)
    | Dict(entries: map<string, Value>)

  /** Python truthiness of a value (`if v:`). */
  predicate Truthy(v: Value) {
    match v
    case Null => false
    case Bool(b) => b
    case Int(i) => i != 0
    case Str(s) => s != ""
    case List(xs) => xs != []
    case Dict(m) => m != map[]
  }

  /** `d.get(key, default)` on a string-keyed dictionary. */
  function Get(d: map<string, Value>, key: string, default: Value): (v: Value)
    ensures key in d ==> v == d[key]
    ensures key !in d ==> v == default
  {
    if key in d then d[key] else default
  }

  /** A task as the callback sees it. `name` is the declared name, "" when
      the task has none; `path` is what `get_path()` returns, "" when the
      task has no known source location. */
  datatype Task = Task(
    action: string,
    name: string,
    args: map<string, Value>,
    tags: seq<string>,
    path: string)

  /** A play; the callback only ever reads its strategy. */
  datatype Play = Play(strategy: string)

  /** A per-host outcome event: the host's name, the task and the raw
      result dictionary. */
  datatype TaskResult = TaskResult(host: string, task: Task, result: map<string, Value>)
}

=== FILE: labels.dfy ===
/** The task labeler: `<action> [<name>] <msg>`, where an unnamed
    free-form task is named after its (truncated) free-form arguments. */
module Labels {
  import opened Data

  /** Actions whose task name can be generated from the free-form argument. */
  const FreeFormModules: set<string> := {"raw", "script", "command", "shell"}

  /** The key under which the engine stores a free-form argument string. */
  const RawParams: string := "_raw_params"

  /** Params longer than this are truncated ... */
  const MaxNameLength: nat := 25
  /** ... to this many characters followed by "...". */
  const KeptLength: nat := 22

  /** The labeler reads `args['_raw_params']` and takes its length exactly
      when the task is unnamed and free-form. The engine supplies a string
      there for such tasks; a missing key makes the source raise, and a
      value of another kind is not modelled. */
  predicate Labelable(task: Task) {
    task.name == "" && task.action in FreeFormModules ==>
      RawParams in task.args && task.args[RawParams].Str?
  }

  /** The fixed truncation policy for free-form argument strings. */
  function Truncate(params: string): (name: string)
    ensures |name| == if |params| > MaxNameLength then MaxNameLength else |params|
    ensures name == params <==> |params| <= MaxNameLength
    ensures |params| > MaxNameLength ==>
      name[..KeptLength] == params[..KeptLength] && name[KeptLength..] == "..."
  {
    if |params| > MaxNameLength then params[..KeptLength] + "..." else params
  }

  /** Truncating twice is truncating once: a name never exceeds the limit. */
  lemma TruncateIdempotent(params: string)
    ensures Truncate(Truncate(params)) == Truncate(params)
  {
  }

  /** The name that goes between the brackets. */
  function TaskName(task: Task): (name: string)
    requires Labelable(task)
    ensures task.name != "" ==> name == task.name
    ensures task.name == "" && task.action !in FreeFormModules ==> name == ""
    ensures task.name == "" && task.action in FreeFormModules ==>
      name == Truncate(task.args[RawParams].s)
  {
    if task.name != "" then task.name
    else if task.action in FreeFormModules then Truncate(task.args[RawParams].s)
    else task.name
  }

  /** `_task_header(task, msg)`: the action, the name in brackets, then
      the message, each readable back at its position. */
  function TaskHeader(task: Task, msg: string): (header: string)
    requires Labelable(task)
    ensures var a, n := |task.action|, |TaskName(task)|;
      && |header| == a + 2 + n + 2 + |msg|
      && header[..a] == task.action
      && header[a..a + 2] == " ["
      && header[a + 2..a + 2 + n] == TaskName(task)
      && header[a + 2 + n..a + 4 + n] == "] "
      && header[a + 4 + n..] == msg
  {
    task.action + " [" + TaskName(task) + "] " + msg
  }

  /** A declared name is used verbatim, whatever the action. */
  lemma NamedTaskHeader(task: Task, msg: string)
    requires task.name != ""
    ensures Labelable(task)
    ensures TaskHeader(task, msg) == task.action + " [" + task.name + "] " + msg
  {
  }

  /** An unnamed free-form task is labelled with its arguments, cut to 22
      characters and "..." when they are longer than 25, so the name part
      of its label is never longer than 25 characters. */
  lemma FreeFormTaskHeader(task: Task, msg: string)
    requires task.name == "" && task.action in FreeFormModules
    requires RawParams in task.args && task.args[RawParams].Str?
    ensures Labelable(task)
    ensures var raw := task.args[RawParams].s;
      TaskHeader(task, msg) ==
        task.action + " [" + (if |raw| > 25 then raw[..22] + "..." else raw) + "] " + msg
    ensures |TaskName(task)| <= MaxNameLength
  {
  }

  /** The 27-character command `echo hello world foobar baz` keeps its
      first 22 characters. */
  lemma TruncateExample()
    ensures Truncate("echo hello world foobar baz") == "echo hello world fooba..."
  {
  }
}

=== FILE: live.dfy ===
/** The `live` stdout callback: one object per playbook run that remembers
    the current play and writes every event to the sink. */
module Live {
  import opened Data
  import opened Sink
  import opened Labels
  import opened Abridge
  import opened Render

  class LiveCallback {
    /** The sink's verbosity, fixed for the run. */
    const verbosity: nat
    /** Actions known never to answer in JSON. */
    const moduleNoJson: set<string>
    /** Inherited collaborators, as the functions they compute on a result. */
    const cleanResults: (map<string, Value>, string) -> map<string, Value>
    const handleWarnings: map<string, Value> -> map<string, Value>
    const handleException: map<string, Value> -> map<string, Value>
    const commandGenericMsg: (string, map<string, Value>, string) -> string
    const getDiff: Value -> string

    /** The current play, set on every play start. */
    var play: Option<Play>
    /** Everything written to the sink so far, in order. */
    var log: seq<Record>

    constructor(verbosity: nat, moduleNoJson: set<string>,
                cleanResults: (map<string, Value>, string) -> map<string, Value>,
                handleWarnings: map<string, Value> -> map<string, Value>,
                handleException: map<string, Value> -> map<string, Value>,
                commandGenericMsg: (string, map<string, Value>, string) -> string,
                getDiff: Value -> string)
      ensures this.verbosity == verbosity && this.moduleNoJson == moduleNoJson
      ensures this.cleanResults == cleanResults && this.handleWarnings == handleWarnings
      ensures this.handleException == handleException
      ensures this.commandGenericMsg == commandGenericMsg && this.getDiff == getDiff
      ensures play == None && log == []
    {
      this.verbosity := verbosity;
      this.moduleNoJson := moduleNoJson;
      this.cleanResults := cleanResults;
      this.handleWarnings := handleWarnings;
      this.handleException := handleException;
      this.commandGenericMsg := commandGenericMsg;
      this.getDiff := getDiff;
      play := None;
      log := [];
    }

    /** One write to the sink. */
    method Display(text: Text, color: Color, gate: nat)
      modifies this`log
      ensures log == old(log) + [Record(text, color, gate)]
    {
      log := log + [Record(text, color, gate)];
    }

    method DisplayCommandGenericMsg(task: Task, result: map<string, Value>, caption: string, color: Color)
      requires Labelable(task)
      modifies this`log
      ensures log == old(log) + CommandGenericLines(task, result, caption, color)
    {
      ghost var start := log;
      Display([Lit(TaskHeader(task, caption) + " | rc="), Show(Get(result, "rc", Int(-1))), Lit(" >>")], color, Always);
      DisplayStdout(result);
      DisplayStderr(result);
      ghost var rc := [RcLine(task, result, caption, color)];
      AppendAssoc(start, rc, StdoutLines(result));
      AppendAssoc(start, rc + StdoutLines(result), StderrLines(result));
    }

    /** The stdout part of the command report. */
    method DisplayStdout(result: map<string, Value>)
      modifies this`log
      ensures log == old(log) + StdoutLines(result)
    {
      // stdout was already streamed when live_stdout is set
      if !Truthy(Get(result, "live_stdout", Bool(false))) {
        Display([Lit("stdout was:")], Highlight, Always);
        Display([Displayed(Get(result, "stdout", Str("")))], NoColor, Always);
        AppendAssoc(old(log), [Line("stdout was:", Highlight)], [Record([Displayed(Get(result, "stdout", Str("")))], NoColor, Always)]);
      }
    }

    /** The stderr part of the command report. */
    method DisplayStderr(result: map<string, Value>)
      modifies this`log
      ensures log == old(log) + StderrLines(result)
    {
      var stderr := Get(result, "stderr", Str(""));
      if Truthy(stderr) {
        Display([Lit("stderr was:")], Highlight, Always);
        Display([Displayed(stderr)], Error, Always);
        AppendAssoc(old(log), [Line("stderr was:", Highlight)], [Record([Displayed(stderr)], Error, Always)]);
      }
    }

    method DisplayDebugMsg(task: Task, result: map<string, Value>)
      requires DebugRenderable(task, result)
      modifies this`log
      ensures log == old(log) + DebugLines(task, result)
    {
      ghost var start := log;
      var color := Ok;
      if Truthy(Get(task.args, "msg", Null)) {
        Display([Lit("debug msg")], Highlight, Always);
        Display([Displayed(Get(result, "msg", Str("")))], color, Always);
        AppendAssoc(start, [Line("debug msg", Highlight)], [Record([Displayed(Get(result, "msg", Str("")))], Ok, Always)]);
      }
      DisplayDebugVar(task, result);
      Display([PlainJson(result)], Verbose, V);
      ghost var m, v := DebugMsgLines(task, result), DebugVarLines(task, result);
      AppendAssoc(start, m, v);
      AppendAssoc(start, m + v, [Record([PlainJson(result)], Verbose, V)]);
    }

    /** The `var` half of the debug formatter. */
    method DisplayDebugVar(task: Task, result: map<string, Value>)
      requires DebugRenderable(task, result)
      modifies this`log
      ensures log == old(log) + DebugVarLines(task, result)
    {
      var color := Ok;
      var name := Get(task.args, "var", Null);
      if Truthy(name) {
        Display([Lit("debug var '"), Show(name), Lit("'")], Highlight, Always);
        var text := VarLookup(result, name);
        if MarkedUndefined(text) {
          color := Error;
          var path := task.path;
          if path != "" {
            Display([Lit("task path: " + path)], Debug, Always);
          }
        }
        Display([Displayed(text)], color, Always);
      }
    }

    method DisplayDappConfig(task: Task, environ: map<string, string>, readable: map<string, string>)
      modifies this`log
      ensures log == old(log) + [DappConfigLine(task.tags, ReadDumpConfigDoc(environ, readable))]
    {
      var tags := task.tags;
      var section := "";
      var stage := "";
      if |tags| > 1 {
        stage := tags[|tags| - 2];
        section := tags[|tags| - 1];
      }
      var doc := ReadDumpConfigDoc(environ, readable);
      Display([Lit("\n\n" + stage + "\n..." + section + "\n" + doc)], Debug, Always);
    }

    method PlayStart(p: Play)
      modifies this`play
      ensures play == Some(p) && log == old(log)
    {
      play := Some(p);
    }

    method TaskStart(task: Task, isConditional: bool)
      requires TaskStartPossible(task, play)
      modifies this`log
      ensures log == old(log) + TaskStartLines(task, play)
    {
      Display([Lit("    v2_playbook_on_task_start")], Verbose, VVV);
      Display([PlainJson(task.args)], Verbose, VVVVVV);

      if task.action == DebugAction {
        return;
      }

      if play.value.strategy != FreeStrategy {
        Display([Lit(TaskHeader(task, "started"))], Highlight, Always);
      }
    }

    /** The result the ok handler renders, after the inherited clean-up. */
    function OkResult(r: TaskResult): map<string, Value>
    {
      handleWarnings(cleanResults(r.result, r.task.action))
    }

    method RunnerOk(r: TaskResult)
      requires OkRenderable(r.task, OkResult(r))
      modifies this`log
      ensures log == old(log) + RunnerOkLines(r.task, r.host, OkResult(r), verbosity)
    {
      ghost var start := log;
      Display([Lit("    v2_runner_on_OK")], Verbose, VVV);
      var result := cleanResults(r.result, r.task.action);
      result := handleWarnings(result);
      DisplayOkBody(r.task, r.host, result);
      AppendAssoc(start, [Trace("    v2_runner_on_OK", VVV)], OkBodyLines(r.task, r.host, result, verbosity));
    }

    /** The dispatch of the ok handler on the kind of task. */
    method DisplayOkBody(task: Task, host: string, result: map<string, Value>)
      requires OkRenderable(task, result)
      modifies this`log
      ensures log == old(log) + OkBodyLines(task, host, result, verbosity)
    {
      if task.action == DebugAction {
        DisplayDebugMsg(task, result);
      } else if task.action in FreeFormModules {
        DisplayCommandGenericMsg(task, result, "SUCCESS", Ok);
      } else {
        DisplaySuccess(host, result);
      }
    }

    /** The success line of a task that is neither debug nor free-form. */
    method DisplaySuccess(host: string, result: map<string, Value>)
      modifies this`log
      ensures log == old(log) + [SuccessLine(host, result, verbosity)]
    {
      var dump := DumpResults(result, Some(4), true, false, verbosity);
      if "changed" in result && Truthy(result["changed"]) {
        Display([Lit(host + " | SUCCESS => ")] + dump, Changed, Always);
      } else {
        Display([Lit(host + " | SUCCESS => ")] + dump, Ok, Always);
      }
    }

    /** The result the failure handler renders, after the inherited
        exception and warning handling. */
    function FailedResult(r: TaskResult): map<string, Value>
    {
      handleWarnings(handleException(r.result))
    }

    method RunnerFailed(r: TaskResult, ignoreErrors: bool,
                        environ: map<string, string>, readable: map<string, string>)
      requires FailedRenderable(r.task, FailedResult(r), moduleNoJson)
      modifies this`log
      ensures log == old(log) + RunnerFailedLines(r.task, r.host, FailedResult(r), verbosity,
                                                  moduleNoJson, commandGenericMsg,
                                                  ReadDumpConfigDoc(environ, readable))
    {
      ghost var start := log;
      Display([Lit("    v2_runner_on_failed")], Verbose, VVV);
      var result := handleException(r.result);
      result := handleWarnings(result);
      DisplayFailedBody(r.task, r.host, result);
      ghost var body := FailedBodyLines(r.task, r.host, result, verbosity, moduleNoJson, commandGenericMsg);
      AppendAssoc(start, [Trace("    v2_runner_on_failed", VVV)], body);
      DisplayDappConfig(r.task, environ, readable);
    }

    /** The dispatch of the failure handler on the kind of task. */
    method DisplayFailedBody(task: Task, host: string, result: map<string, Value>)
      requires FailedRenderable(task, result, moduleNoJson)
      modifies this`log
      ensures log == old(log) + FailedBodyLines(task, host, result, verbosity, moduleNoJson, commandGenericMsg)
    {
      if task.action in FreeFormModules {
        DisplayCommandGenericMsg(task, result, "FAILED", Error);
      } else if task.action in moduleNoJson && "module_stderr" !in result {
        Display([Lit(commandGenericMsg(host, result, "FAILED"))], Error, Always);
      } else {
        DisplayStructuredFailure(task, result);
      }
    }

    /** The failure report of a task that answers in JSON. */
    method DisplayStructuredFailure(task: Task, result: map<string, Value>)
      requires Labelable(task)
      modifies this`log
      ensures log == old(log) + StructuredFailureLines(task, result, verbosity)
    {
      ghost var start := log;
      Display([Lit(TaskHeader(task, "FAILED"))], Error, Always);
      ghost var afterHeader := log;
      if "msg" in result {
        Display([Displayed(result["msg"])], Error, Always);
      }
      ghost var msg := if "msg" in result then [Record([Displayed(result["msg"])], Error, Always)] else [];
      assert log == afterHeader + msg;
      ghost var afterMsg := log;
      var dump := DumpResults(result, Some(4), true, false, verbosity);
      if dump != [] {
        // the source computes the dump a second time before showing it
        dump := DumpResults(result, Some(4), true, false, verbosity);
        Display([Lit("Task result => ")] + dump, Error, Always);
      }
      ghost var tail := if dump != [] then [Record([Lit("Task result => ")] + dump, Error, Always)] else [];
      assert log == afterMsg + tail;
      AppendAssoc(start, [Line(TaskHeader(task, "FAILED"), Error)], msg);
      AppendAssoc(start, [Line(TaskHeader(task, "FAILED"), Error)] + msg, tail);
    }

    method RunnerSkipped(r: TaskResult)
      modifies this`log
      ensures log == old(log) + [Line(r.host + " | SKIPPED", Skip)]
    {
      Display([Lit(r.host + " | SKIPPED")], Skip, Always);
    }

    method RunnerUnreachable(r: TaskResult)
      modifies this`log
      ensures log == old(log) + [UnreachableLine(r.host, r.result, verbosity)]
    {
      var dump := DumpResults(r.result, Some(4), true, false, verbosity);
      Display([Lit(r.host + " | UNREACHABLE! => ")] + dump, Unreachable, Always);
    }

    method FileDiff(r: TaskResult)
      modifies this`log
      ensures log == old(log) + FileDiffLines(r.result, getDiff)
    {
      if "diff" in r.result && Truthy(r.result["diff"]) {
        Display([Lit(getDiff(r.result["diff"]))], NoColor, Always);
      }
    }
  }
}

=== FILE: render.dfy ===
/** What each display helper and event handler of the live callback writes
    to the sink, as a sequence of records. Each function states the
    properties of its output; the class in module Live appends exactly
    these records. */
module Render {
  import opened Data
  import opened Strings
  import opened Sink
  import opened Labels
  import opened Abridge

  const DebugAction: string := "debug"
  const FreeStrategy: string := "free"
  /** The sentinel the engine puts in place of an undefined variable. */
  const NotDefinedMarker: string := "IS NOT DEFINED"
  /** The environment variable naming the configuration document. */
  const DumpConfigDocVar: string := "DAPP_DUMP_CONFIG_DOC_PATH"

  /** A one-chunk line shown at every verbosity. */
  function Line(s: string, color: Color): Record {
    Record([Lit(s)], color, Always)
  }

  /** A trace line written through one of the sink's `v()`-style calls. */
  function Trace(s: string, gate: nat): Record {
    Record([Lit(s)], Verbose, gate)
  }

  /** `json.dumps(d)` with the library's defaults. */
  function PlainJson(d: map<string, Value>): Chunk {
    Json(d, None, false, true)
  }

  // ---------------------------------------------------------------------
  // _display_command_generic_msg

  predicate LiveStdout(result: map<string, Value>) {
    Truthy(Get(result, "live_stdout", Bool(false)))
  }

  function StderrOf(result: map<string, Value>): Value {
    Get(result, "stderr", Str(""))
  }

  /** `<header> | rc=<rc> >>`, with -1 when the result has no return code. */
  function RcLine(task: Task, result: map<string, Value>, caption: string, color: Color): (r: Record)
    requires Labelable(task)
    ensures r.color == color && r.minVerbosity == Always && |r.text| == 3
    ensures r.text[0] == Lit(TaskHeader(task, caption) + " | rc=") && r.text[2] == Lit(" >>")
    ensures "rc" !in result ==> r.text[1] == Lit("-1")
    ensures "rc" in result ==> r.text[1] == Show(result["rc"])
  {
    Record([Lit(TaskHeader(task, caption) + " | rc="), Show(Get(result, "rc", Int(-1))), Lit(" >>")], color, Always)
  }

  /** The stdout label and body, unless stdout was streamed live. */
  function StdoutLines(result: map<string, Value>): (r: seq<Record>)
    ensures |r| == if LiveStdout(result) then 0 else 2
    ensures r != [] ==> r[0] == Line("stdout was:", Highlight) && r[1].color == NoColor
  {
    if LiveStdout(result) then []
    else [Line("stdout was:", Highlight), Record([Displayed(Get(result, "stdout", Str("")))], NoColor, Always)]
  }

  /** The stderr label and body, when there is any stderr. */
  function StderrLines(result: map<string, Value>): (r: seq<Record>)
    ensures |r| == if Truthy(StderrOf(result)) then 2 else 0
    ensures r != [] ==> r[0] == Line("stderr was:", Highlight) && r[1].color == Error
  {
    if Truthy(StderrOf(result))
    then [Line("stderr was:", Highlight), Record([Displayed(StderrOf(result))], Error, Always)]
    else []
  }

  /** `_display_command_generic_msg`: the return-code line, then stdout
      unless it was streamed, then stderr if there is any. */
  function CommandGenericLines(task: Task, result: map<string, Value>, caption: string, color: Color): (r: seq<Record>)
    requires Labelable(task)
    ensures |r| >= 1 && r[0] == RcLine(task, result, caption, color)
  {
    [RcLine(task, result, caption, color)] + StdoutLines(result) + StderrLines(result)
  }

  /** The shape of the command report: how many lines, which label appears
      exactly when, and that every line is shown at every verbosity. */
  lemma CommandGenericShape(task: Task, result: map<string, Value>, caption: string, color: Color)
    requires Labelable(task)
    ensures var r := CommandGenericLines(task, result, caption, color);
      && |r| == 1 + (if LiveStdout(result) then 0 else 2) + (if Truthy(StderrOf(result)) then 2 else 0)
      && r[0] == RcLine(task, result, caption, color)
      && (Line("stdout was:", Highlight) in r <==> !LiveStdout(result))
      && (!LiveStdout(result) ==>
            r[1] == Line("stdout was:", Highlight) &&
            r[2] == Record([Displayed(Get(result, "stdout", Str("")))], NoColor, Always))
      && (Line("stderr was:", Highlight) in r <==> Truthy(StderrOf(result)))
      && (Truthy(StderrOf(result)) ==>
            r[|r| - 2] == Line("stderr was:", Highlight) &&
            r[|r| - 1] == Record([Displayed(StderrOf(result))], Error, Always))
      && (forall x :: x in r ==> x.minVerbosity == Always)
  {
    var rc, o, e := RcLine(task, result, caption, color), StdoutLines(result), StderrLines(result);
    var r := CommandGenericLines(task, result, caption, color);
    assert r == [rc] + o + e;
    assert Line("stdout was:", Highlight) != Line("stderr was:", Highlight) by {
      assert "stdout was:"[3] != "stderr was:"[3];
    }
    if LiveStdout(result) {
      assert r == [rc] + e;
    } else {
      assert r == [rc, o[0], o[1]] + e;
    }
  }

  // ---------------------------------------------------------------------
  // _display_debug_msg

  /** Values Python can use as a dictionary key (lists and dicts cannot). */
  predicate Hashable(v: Value) {
    !v.List? && !v.Dict?
  }

  function DebugVar(task: Task): Value {
    Get(task.args, "var", Null)
  }

  /** `result.get(var, '')`: result keys are strings, so a key of any other
      hashable kind is simply missing. */
  function VarLookup(result: map<string, Value>, key: Value): (v: Value)
    requires Hashable(key)
    ensures key.Str? && key.s in result ==> v == result[key.s]
    ensures !(key.Str? && key.s in result) ==> v == Str("")
  {
    if key.Str? then Get(result, key.s, Str("")) else Str("")
  }

  /** The debug formatter does not look up an unhashable key (the source
      would raise). */
  predicate DebugRenderable(task: Task, result: map<string, Value>) {
    Truthy(DebugVar(task)) ==> Hashable(DebugVar(task))
  }

  /** The undefined-variable test, made total. On a string, a list or a
      dict it is Python's `'IS NOT DEFINED' in text`; on None, a boolean or
      an integer, where that expression raises, the marker is looked for in
      the value's `'%s'` text, which never holds it. */
  predicate MarkedUndefined(text: Value) {
    if SupportsIn(text) then PyIn(NotDefinedMarker, text)
    else IsSubstring(NotDefinedMarker, Show(text).s)
  }

  /** The total test agrees with the source's wherever the source's does
      not raise, and reports every other value as defined. */
  lemma MarkedUndefinedAgrees(text: Value)
    ensures SupportsIn(text) ==> (MarkedUndefined(text) <==> PyIn(NotDefinedMarker, text))
    ensures !SupportsIn(text) ==> !MarkedUndefined(text)
  {
    if !SupportsIn(text) {
      var s := Show(text).s;
      if text.Int? {
        NoMarkerInNumeral(s);
      } else {
        assert |s| < |NotDefinedMarker|;
      }
    }
  }

  /** A decimal numeral never contains the marker: its characters are
      digits and a sign, and the marker starts with `I`. */
  lemma NoMarkerInNumeral(s: string)
    requires IsDecimal(s)
    ensures !IsSubstring(NotDefinedMarker, s)
  {
    IsSubstringIff(NotDefinedMarker, s);
    forall i ensures !OccursAt(NotDefinedMarker, s, i) {
      if 0 <= i && i + |NotDefinedMarker| <= |s| {
        assert s[i..i + |NotDefinedMarker|][0] == s[i];
        assert s[i] == '-' || IsDigit(s[i]);
      }
    }
  }

  /** As written, a debug task whose variable holds an integer reaches
      `'IS NOT DEFINED' in 5`, which Python refuses for an integer: the
      value is outside the domain of the source's test. */
  lemma IntVariableRaises()
    ensures var task, result := Task(DebugAction, "", map["var" := Str("x")], [], ""), map["x" := Int(5)];
      && DebugRenderable(task, result)
      && VarLookup(result, DebugVar(task)) == Int(5)
      && !SupportsIn(VarLookup(result, DebugVar(task)))
      && !MarkedUndefined(VarLookup(result, DebugVar(task)))
  {
    MarkedUndefinedAgrees(Int(5));
  }

  /** The task asks for a variable and the engine reported it undefined. */
  predicate VarUndefined(task: Task, result: map<string, Value>)
    requires DebugRenderable(task, result)
  {
    Truthy(DebugVar(task)) && MarkedUndefined(VarLookup(result, DebugVar(task)))
  }

  /** The `msg` part of the debug formatter. */
  function DebugMsgLines(task: Task, result: map<string, Value>): (r: seq<Record>)
    ensures r != [] <==> Truthy(Get(task.args, "msg", Null))
    ensures r != [] ==> |r| == 2 && r[0] == Line("debug msg", Highlight)
    ensures r != [] ==> r[1] == Record([Displayed(Get(result, "msg", Str("")))], Ok, Always)
  {
    if Truthy(Get(task.args, "msg", Null))
    then [Line("debug msg", Highlight), Record([Displayed(Get(result, "msg", Str("")))], Ok, Always)]
    else []
  }

  /** The `var` part of the debug formatter. */
  function DebugVarLines(task: Task, result: map<string, Value>): (r: seq<Record>)
    requires DebugRenderable(task, result)
    ensures r != [] <==> Truthy(DebugVar(task))
    ensures r != [] ==> r[0] == Record([Lit("debug var '"), Show(DebugVar(task)), Lit("'")], Highlight, Always)
    ensures r != [] ==> r[|r| - 1].text == [Displayed(VarLookup(result, DebugVar(task)))]
    ensures |r| == if !Truthy(DebugVar(task)) then 0 else if VarUndefined(task, result) && task.path != "" then 3 else 2
    ensures |r| == 3 ==> r[1] == Line("task path: " + task.path, Debug)
  {
    if Truthy(DebugVar(task)) then
      var text := VarLookup(result, DebugVar(task));
      var undefined := MarkedUndefined(text);
      [Record([Lit("debug var '"), Show(DebugVar(task)), Lit("'")], Highlight, Always)]
      + (if undefined && task.path != "" then [Line("task path: " + task.path, Debug)] else [])
      + [Record([Displayed(text)], if undefined then Error else Ok, Always)]
    else []
  }

  /** `_display_debug_msg`: the message part, the variable part, then the
      whole result as JSON for a sink at `-v` or more. */
  function DebugLines(task: Task, result: map<string, Value>): (r: seq<Record>)
    requires DebugRenderable(task, result)
    ensures |r| == |DebugMsgLines(task, result)| + |DebugVarLines(task, result)| + 1
    ensures r[|r| - 1] == Record([PlainJson(result)], Verbose, V)
  {
    DebugMsgLines(task, result) + DebugVarLines(task, result) + [Record([PlainJson(result)], Verbose, V)]
  }

  lemma DebugMsgShape(task: Task, result: map<string, Value>)
    ensures var r := DebugMsgLines(task, result);
      && (forall x :: x in r ==> x.minVerbosity == Always && (x.color == Highlight || x.color == Ok))
      && (Line("debug msg", Highlight) in r <==> Truthy(Get(task.args, "msg", Null)))
      && (r != [] ==> r[1] == Record([Displayed(Get(result, "msg", Str("")))], Ok, Always))
  {
  }

  /** The variable is shown, in the error colour and after the task's path
      when it has one, exactly when the engine reported it undefined. */
  lemma DebugVarShape(task: Task, result: map<string, Value>)
    requires DebugRenderable(task, result)
    ensures var r := DebugVarLines(task, result);
      && (r != [] <==> Truthy(DebugVar(task)))
      && (forall x :: x in r ==> x.minVerbosity == Always && x != Line("debug msg", Highlight))
      && ((exists x :: x in r && x.color == Error) <==> VarUndefined(task, result))
      && (VarUndefined(task, result) ==>
            r[|r| - 1] == Record([Displayed(VarLookup(result, DebugVar(task)))], Error, Always))
      && (Truthy(DebugVar(task)) && !VarUndefined(task, result) ==>
            r[|r| - 1] == Record([Displayed(VarLookup(result, DebugVar(task)))], Ok, Always))
      && (Line("task path: " + task.path, Debug) in r <==> VarUndefined(task, result) && task.path != "")
      && |r| == (if !Truthy(DebugVar(task)) then 0 else if VarUndefined(task, result) && task.path != "" then 3 else 2)
      && (|r| == 3 ==> r[1] == Line("task path: " + task.path, Debug))
  {
    var r := DebugVarLines(task, result);
    if Truthy(DebugVar(task)) {
      assert r[|r| - 1] in r;
    }
  }

  /** The debug report ends with the JSON of the result, shown from `-v`;
      every other line is shown always; the message label appears exactly
      when the task has a message, the error colour exactly when the
      variable is undefined. */
  lemma DebugShape(task: Task, result: map<string, Value>)
    requires DebugRenderable(task, result)
    ensures var r := DebugLines(task, result);
      && |r| >= 1 && r[|r| - 1] == Record([PlainJson(result)], Verbose, V)
      && (forall i :: 0 <= i < |r| - 1 ==> r[i].minVerbosity == Always)
      && (Line("debug msg", Highlight) in r <==> Truthy(Get(task.args, "msg", Null)))
      && ((exists x :: x in r && x.color == Error) <==> VarUndefined(task, result))
      && (Line("task path: " + task.path, Debug) in r <==> VarUndefined(task, result) && task.path != "")
  {
    var m, v := DebugMsgLines(task, result), DebugVarLines(task, result);
    DebugMsgShape(task, result);
    DebugVarShape(task, result);
    var r := DebugLines(task, result);
    assert r == m + v + [Record([PlainJson(result)], Verbose, V)];
    assert forall i :: 0 <= i < |r| - 1 ==> r[i] in m || r[i] in v;
  }

  // ---------------------------------------------------------------------
  // _read_dump_config_doc and _display_dapp_config

  /** The configuration document: the content of the file the environment
      variable names, or "" when the variable is unset or the file cannot
      be read. `readable` maps each readable path to its content. */
  function ReadDumpConfigDoc(environ: map<string, string>, readable: map<string, string>): (doc: string)
    ensures DumpConfigDocVar !in environ ==> doc == ""
    ensures DumpConfigDocVar in environ && environ[DumpConfigDocVar] !in readable ==> doc == ""
    ensures DumpConfigDocVar in environ && environ[DumpConfigDocVar] in readable ==>
      doc == readable[environ[DumpConfigDocVar]]
  {
    if DumpConfigDocVar !in environ then ""
    else
      var path := environ[DumpConfigDocVar];
      if path in readable then readable[path] else ""
  }

  /** Stage name and configuration section: the last two tags, or two
      empty strings when the task has fewer than two tags. */
  function DappSection(tags: seq<string>): (p: (string, string))
    ensures |tags| >= 2 ==> p.0 == tags[|tags| - 2] && p.1 == tags[|tags| - 1]
    ensures |tags| < 2 ==> p == ("", "")
  {
    if |tags| > 1 then (tags[|tags| - 2], tags[|tags| - 1]) else ("", "")
  }

  /** The configuration block: one always-shown debug line holding two
      newlines, the stage tag, a newline and `...`, the section tag, a
      newline and the document, each readable back at its position. */
  function DappConfigLine(tags: seq<string>, doc: string): (r: Record)
    ensures r.color == Debug && r.minVerbosity == Always
    ensures |r.text| == 1 && r.text[0].Lit?
    ensures var t, stage, section := r.text[0].s, DappSection(tags).0, DappSection(tags).1;
      && |t| == |stage| + |section| + |doc| + 7
      && t[..2] == "\n\n"
      && t[2..2 + |stage|] == stage
      && t[2 + |stage|..6 + |stage|] == "\n..."
      && t[6 + |stage|..6 + |stage| + |section|] == section
      && t[6 + |stage| + |section|..] == "\n" + doc
    ensures |tags| < 2 ==> r.text == [Lit("\n\n\n...\n" + doc)]
  {
    var (stage, section) := DappSection(tags);
    assert |tags| < 2 ==> "\n\n" + stage + "\n..." + section + "\n" + doc == "\n\n\n...\n" + doc;
    Line("\n\n" + stage + "\n..." + section + "\n" + doc, Debug)
  }

  // ---------------------------------------------------------------------
  // v2_playbook_on_task_start

  /** The handler reads the current play only for a non-debug task (there
      is always one by then) and labels the task only when it prints the
      banner. */
  predicate TaskStartPossible(task: Task, play: Option<Play>) {
    task.action != DebugAction ==>
      play.Some? && (play.value.strategy != FreeStrategy ==> Labelable(task))
  }

  function StartedBanner(task: Task): (r: Record)
    requires Labelable(task)
    ensures r.color == Highlight && r.minVerbosity == Always
    ensures r.text == [Lit(TaskHeader(task, "started"))]
  {
    Line(TaskHeader(task, "started"), Highlight)
  }

  /** `v2_playbook_on_task_start`: two trace lines, then the banner unless
      the task is a debug task or the play runs the free strategy. */
  function TaskStartLines(task: Task, play: Option<Play>): (r: seq<Record>)
    requires TaskStartPossible(task, play)
    ensures |r| == if task.action != DebugAction && play.value.strategy != FreeStrategy then 3 else 2
    ensures r[0] == Trace("    v2_playbook_on_task_start", VVV)
    ensures r[1] == Record([PlainJson(task.args)], Verbose, VVVVVV)
    ensures |r| == 3 ==> r[2] == StartedBanner(task)
  {
    [Trace("    v2_playbook_on_task_start", VVV), Record([PlainJson(task.args)], Verbose, VVVVVV)]
    + (if task.action == DebugAction then []
       else if play.value.strategy != FreeStrategy then [StartedBanner(task)]
       else [])
  }

  /** Below `-vvv` a task start shows exactly its banner, and no line at all
      for a debug task or under the free strategy. */
  lemma TaskStartShown(task: Task, play: Option<Play>, verbosity: nat)
    requires TaskStartPossible(task, play)
    requires verbosity < VVV
    ensures task.action == DebugAction ==> Shown(TaskStartLines(task, play), verbosity) == []
    ensures task.action != DebugAction && play.value.strategy == FreeStrategy ==>
      Shown(TaskStartLines(task, play), verbosity) == []
    ensures task.action != DebugAction && play.value.strategy != FreeStrategy ==>
      Shown(TaskStartLines(task, play), verbosity) == [StartedBanner(task)]
  {
    var r := TaskStartLines(task, play);
    var head := [Trace("    v2_playbook_on_task_start", VVV), Record([PlainJson(task.args)], Verbose, VVVVVV)];
    ShownAppend(head, r[2..], verbosity);
    assert r == head + r[2..];
    assert Shown(head, verbosity) == [] by {
      assert head[1..][1..] == [];
    }
    if r[2..] != [] {
      assert r[2..][1..] == [];
    }
  }

  /** From `-vvvvvv` on, where the JSON of the arguments is shown, a task
      start shows all of its lines. */
  lemma TaskStartVerbose(task: Task, play: Option<Play>, verbosity: nat)
    requires TaskStartPossible(task, play)
    requires verbosity >= VVVVVV
    ensures Shown(TaskStartLines(task, play), verbosity) == TaskStartLines(task, play)
  {
    ShownAll(TaskStartLines(task, play), verbosity);
  }

  // ---------------------------------------------------------------------
  // v2_runner_on_ok

  predicate OkRenderable(task: Task, result: map<string, Value>) {
    && (task.action == DebugAction ==> DebugRenderable(task, result))
    && (task.action != DebugAction && task.action in FreeFormModules ==> Labelable(task))
  }

  predicate ChangedFlag(result: map<string, Value>) {
    "changed" in result && Truthy(result["changed"])
  }

  /** `<host> | SUCCESS => <dump>` of a task that is neither debug nor
      free-form. */
  function SuccessLine(host: string, result: map<string, Value>, verbosity: nat): (r: Record)
    ensures r.minVerbosity == Always
    ensures r.color == Changed <==> ChangedFlag(result)
    ensures r.color == Ok <==> !ChangedFlag(result)
    ensures |r.text| >= 1 && r.text[0] == Lit(host + " | SUCCESS => ")
    ensures r.text[1..] == DumpOf(result, Some(4), true, false, verbosity)
  {
    Record([Lit(host + " | SUCCESS => ")] + DumpOf(result, Some(4), true, false, verbosity),
           if ChangedFlag(result) then Changed else Ok, Always)
  }

  /** `v2_runner_on_ok`: a trace line, then the report chosen by the kind
      of task. */
  function RunnerOkLines(task: Task, host: string, result: map<string, Value>, verbosity: nat): (r: seq<Record>)
    requires OkRenderable(task, result)
    ensures |r| >= 2 && r[0] == Trace("    v2_runner_on_OK", VVV)
    ensures r[1..] == OkBodyLines(task, host, result, verbosity)
  {
    [Trace("    v2_runner_on_OK", VVV)] + OkBodyLines(task, host, result, verbosity)
  }

  /** What the ok handler writes after its trace line. */
  function OkBodyLines(task: Task, host: string, result: map<string, Value>, verbosity: nat): (r: seq<Record>)
    requires OkRenderable(task, result)
    ensures r != []
    ensures task.action == DebugAction ==> r == DebugLines(task, result)
    ensures task.action != DebugAction && task.action in FreeFormModules ==>
      r == CommandGenericLines(task, result, "SUCCESS", Ok)
    ensures task.action != DebugAction && task.action !in FreeFormModules ==> r == [SuccessLine(host, result, verbosity)]
  {
    if task.action == DebugAction then DebugLines(task, result)
    else if task.action in FreeFormModules then CommandGenericLines(task, result, "SUCCESS", Ok)
    else [SuccessLine(host, result, verbosity)]
  }

  /** A quiet sink shows the debug report without the JSON of the result;
      from `-v` on it shows the whole report. */
  lemma DebugShown(task: Task, result: map<string, Value>, verbosity: nat)
    requires DebugRenderable(task, result)
    ensures verbosity == Always ==>
      Shown(DebugLines(task, result), verbosity) == DebugMsgLines(task, result) + DebugVarLines(task, result)
    ensures verbosity >= V ==> Shown(DebugLines(task, result), verbosity) == DebugLines(task, result)
  {
    var m, v := DebugMsgLines(task, result), DebugVarLines(task, result);
    var json := [Record([PlainJson(result)], Verbose, V)];
    DebugMsgShape(task, result);
    DebugVarShape(task, result);
    ShownAll(m + v, verbosity);
    ShownAppend(m + v, json, verbosity);
    if verbosity == Always {
      ShownNone(json, verbosity);
    } else {
      ShownAll(json, verbosity);
    }
  }

  /** Below `-vvv` the ok handler's trace line is hidden: a plain task
      shows only its success line, a free-form task its whole command
      report, and a debug task its report without the JSON of the result,
      which appears from `-v` on. */
  lemma RunnerOkShown(task: Task, host: string, result: map<string, Value>, verbosity: nat)
    requires OkRenderable(task, result)
    requires verbosity < VVV
    ensures task.action != DebugAction && task.action !in FreeFormModules ==>
      Shown(RunnerOkLines(task, host, result, verbosity), verbosity) == [SuccessLine(host, result, verbosity)]
    ensures task.action != DebugAction && task.action in FreeFormModules ==>
      Shown(RunnerOkLines(task, host, result, verbosity), verbosity) == CommandGenericLines(task, result, "SUCCESS", Ok)
    ensures task.action == DebugAction && verbosity == Always ==>
      Shown(RunnerOkLines(task, host, result, verbosity), verbosity) ==
        DebugMsgLines(task, result) + DebugVarLines(task, result)
    ensures task.action == DebugAction && verbosity >= V ==>
      Shown(RunnerOkLines(task, host, result, verbosity), verbosity) == DebugLines(task, result)
  {
    var trace := [Trace("    v2_runner_on_OK", VVV)];
    var body := OkBodyLines(task, host, result, verbosity);
    ShownAppend(trace, body, verbosity);
    ShownNone(trace, verbosity);
    assert Shown(RunnerOkLines(task, host, result, verbosity), verbosity) == Shown(body, verbosity);
    if task.action == DebugAction {
      DebugShown(task, result, verbosity);
    } else if task.action in FreeFormModules {
      CommandGenericShape(task, result, "SUCCESS", Ok);
      ShownAll(body, verbosity);
    } else {
      ShownAll(body, verbosity);
    }
  }

  // ---------------------------------------------------------------------
  // v2_runner_on_failed

  /** The legacy one-line failure message is used for actions known not to
      answer in JSON, unless the module wrote to stderr. */
  predicate LegacyFailure(task: Task, result: map<string, Value>, moduleNoJson: set<string>) {
    task.action !in FreeFormModules && task.action in moduleNoJson && "module_stderr" !in result
  }

  predicate FailedRenderable(task: Task, result: map<string, Value>, moduleNoJson: set<string>) {
    !LegacyFailure(task, result, moduleNoJson) ==> Labelable(task)
  }

  /** The structured failure report: header, then the message if any, then
      the dump if it is not empty. */
  function StructuredFailureLines(task: Task, result: map<string, Value>, verbosity: nat): seq<Record>
    requires Labelable(task)
  {
    var dump := DumpOf(result, Some(4), true, false, verbosity);
    [Line(TaskHeader(task, "FAILED"), Error)]
    + (if "msg" in result then [Record([Displayed(result["msg"])], Error, Always)] else [])
    + (if dump != [] then [Record([Lit("Task result => ")] + dump, Error, Always)] else [])
  }

  /** Every line of the structured failure report is an error line shown
      always; the message line and the dump line appear exactly when there
      is a message and a non-empty dump. */
  lemma StructuredFailureShape(task: Task, result: map<string, Value>, verbosity: nat)
    requires Labelable(task)
    ensures var r, dump := StructuredFailureLines(task, result, verbosity), DumpOf(result, Some(4), true, false, verbosity);
      && |r| == 1 + (if "msg" in result then 1 else 0) + (if dump != [] then 1 else 0)
      && r[0] == Line(TaskHeader(task, "FAILED"), Error)
      && ("msg" in result ==> r[1] == Record([Displayed(result["msg"])], Error, Always))
      && (dump != [] ==> r[|r| - 1] == Record([Lit("Task result => ")] + dump, Error, Always))
      && (forall x :: x in r ==> x.color == Error && x.minVerbosity == Always)
  {
  }

  /** `v2_runner_on_failed`: a trace line, the report chosen by the kind of
      task, then the configuration block. */
  function RunnerFailedLines(task: Task, host: string, result: map<string, Value>, verbosity: nat,
                             moduleNoJson: set<string>,
                             commandGenericMsg: (string, map<string, Value>, string) -> string,
                             doc: string): (r: seq<Record>)
    requires FailedRenderable(task, result, moduleNoJson)
    ensures |r| >= 3 && r[0] == Trace("    v2_runner_on_failed", VVV)
    ensures r[|r| - 1] == DappConfigLine(task.tags, doc)
    ensures r[1..|r| - 1] == FailedBodyLines(task, host, result, verbosity, moduleNoJson, commandGenericMsg)
  {
    [Trace("    v2_runner_on_failed", VVV)]
    + FailedBodyLines(task, host, result, verbosity, moduleNoJson, commandGenericMsg)
    + [DappConfigLine(task.tags, doc)]
  }

  /** What the failure handler writes between its trace line and the
      configuration block. */
  function FailedBodyLines(task: Task, host: string, result: map<string, Value>, verbosity: nat,
                           moduleNoJson: set<string>,
                           commandGenericMsg: (string, map<string, Value>, string) -> string): (r: seq<Record>)
    requires FailedRenderable(task, result, moduleNoJson)
    ensures r != []
    ensures task.action in FreeFormModules ==> r == CommandGenericLines(task, result, "FAILED", Error)
    ensures LegacyFailure(task, result, moduleNoJson) ==> r == [Line(commandGenericMsg(host, result, "FAILED"), Error)]
    ensures task.action !in FreeFormModules && !LegacyFailure(task, result, moduleNoJson) ==>
      r == StructuredFailureLines(task, result, verbosity)
  {
    if task.action in FreeFormModules then CommandGenericLines(task, result, "FAILED", Error)
    else if LegacyFailure(task, result, moduleNoJson) then [Line(commandGenericMsg(host, result, "FAILED"), Error)]
    else StructuredFailureLines(task, result, verbosity)
  }

  /** Below `-vvv` the failure handler shows everything but its trace
      line: its report, then the configuration block. */
  lemma RunnerFailedShown(task: Task, host: string, result: map<string, Value>, verbosity: nat,
                          moduleNoJson: set<string>,
                          commandGenericMsg: (string, map<string, Value>, string) -> string,
                          doc: string)
    requires FailedRenderable(task, result, moduleNoJson)
    requires verbosity < VVV
    ensures Shown(RunnerFailedLines(task, host, result, verbosity, moduleNoJson, commandGenericMsg, doc), verbosity)
      == FailedBodyLines(task, host, result, verbosity, moduleNoJson, commandGenericMsg) + [DappConfigLine(task.tags, doc)]
  {
    var trace := [Trace("    v2_runner_on_failed", VVV)];
    var rest := FailedBodyLines(task, host, result, verbosity, moduleNoJson, commandGenericMsg) + [DappConfigLine(task.tags, doc)];
    if task.action in FreeFormModules {
      CommandGenericShape(task, result, "FAILED", Error);
    } else if !LegacyFailure(task, result, moduleNoJson) {
      StructuredFailureShape(task, result, verbosity);
    }
    ShownAll(rest, verbosity);
    ShownNone(trace, verbosity);
    ShownAppend(trace, rest, verbosity);
    AppendAssoc(trace, FailedBodyLines(task, host, result, verbosity, moduleNoJson, commandGenericMsg), [DappConfigLine(task.tags, doc)]);
  }

  // ---------------------------------------------------------------------
  // v2_runner_on_skipped, v2_runner_on_unreachable, v2_on_file_diff

  function UnreachableLine(host: string, result: map<string, Value>, verbosity: nat): (r: Record)
    ensures r.color == Unreachable && r.minVerbosity == Always
    ensures |r.text| >= 1 && r.text[0] == Lit(host + " | UNREACHABLE! => ")
    ensures r.text[1..] == DumpOf(result, Some(4), true, false, verbosity)
  {
    Record([Lit(host + " | UNREACHABLE! => ")] + DumpOf(result, Some(4), true, false, verbosity), Unreachable, Always)
  }

  function FileDiffLines(result: map<string, Value>, getDiff: Value -> string): (r: seq<Record>)
    ensures |r| <= 1
    ensures r != [] <==> "diff" in result && Truthy(result["diff"])
    ensures r != [] ==> r[0] == Line(getDiff(result["diff"]), NoColor)
  {
    if "diff" in result && Truthy(result["diff"]) then [Line(getDiff(result["diff"]), NoColor)] else []
  }
}

=== FILE: sink.dfy ===
/** The leveled output sink (the engine's display object), modelled as an
    append-only log of records. A record carries its text, its colour tag
    and the verbosity at or above which the sink shows it. */
module Sink {
  import opened Data
  import opened Strings

  /** The fixed colour palette. `NoColor` is a plain `display(msg)`;
      `Verbose` is the colour the sink uses for its `v()`-style calls. */
  datatype Color = NoColor | Ok | Changed | Error | Skip | Unreachable | Highlight | Debug | Verbose

  /** A piece of a line of text. `Lit` is literal text; `Repr` is a value
      that is not a string, either formatted by Python's `str()` (a list or
      a dict) or handed to the display object as it is; its characters are
      not modelled. `Json` is `json.dumps` of a dictionary with the given
      options, whose characters are not modelled either. The empty text is
      `[]`. */
  datatype Chunk =
    | Lit(s: string)
    | Repr(v: Value)
    | Json(body: map<string, Value>, indent: Option<int>, sortKeys: bool, ensureAscii: bool)

  type Text = seq<Chunk>

  datatype Record = Record(text: Text, color: Color, minVerbosity: nat)

  /** Verbosity gates of the sink: `display()` always shows, `v()` from one
      `-v`, `vvv()` from three, `vvvvvv()` from six. */
  const Always: nat := 0
  const V: nat := 1
  const VVV: nat := 3
  const VVVVVV: nat := 6

  /** Python's `'%s' % v`: scalars are rendered, lists and dicts are left
      abstract. */
  function Show(v: Value): (c: Chunk)
    ensures v.Null? ==> c == Lit("None")
    ensures v.Bool? ==> c == Lit(if v.b then "True" else "False")
    ensures v.Str? ==> c == Lit(v.s)
    ensures v.Int? ==> c == Lit(IntToString(v.i)) && IsDecimal(c.s) && ParseInt(c.s) == v.i
    ensures c.Repr? <==> v.List? || v.Dict?
  {
    match v
    case Null => Lit("None")
    case Bool(b) => Lit(if b then "True" else "False")
    case Int(i) => IntRoundTrip(i); Lit(IntToString(i))
    case Str(s) => Lit(s)
    case List(_) => Repr(v)
    case Dict(_) => Repr(v)
  }

  /** A value passed to `display()` without formatting: a string is
      written as it is; any other value reaches the display object
      unchanged. */
  function Displayed(v: Value): (c: Chunk)
    ensures v.Str? ==> c == Lit(v.s)
    ensures !v.Str? ==> c == Repr(v)
  {
    if v.Str? then Lit(v.s) else Repr(v)
  }

  /** The records a sink at the given verbosity actually writes, in order. */
  function Shown(log: seq<Record>, verbosity: nat): (r: seq<Record>)
    ensures |r| <= |log|
    ensures forall x :: x in r ==> x in log && x.minVerbosity <= verbosity
    ensures forall x :: x in log && x.minVerbosity <= verbosity ==> x in r
  {
    if log == [] then []
    else (if log[0].minVerbosity <= verbosity then [log[0]] else []) + Shown(log[1..], verbosity)
  }

  /** Filtering commutes with appending: what a handler adds to the log is
      shown independently of what was logged before it. */
  lemma {:induction false} ShownAppend(a: seq<Record>, b: seq<Record>, verbosity: nat)
    ensures Shown(a + b, verbosity) == Shown(a, verbosity) + Shown(b, verbosity)
  {
    if a != [] {
      assert (a + b)[1..] == a[1..] + b;
      ShownAppend(a[1..], b, verbosity);
    } else {
      assert a + b == b;
    }
  }

  /** Appending in two steps is appending once; stated for logs so that a
      handler's proof need not rediscover it. */
  lemma AppendAssoc(a: seq<Record>, b: seq<Record>, c: seq<Record>)
    ensures a + b + c == a + (b + c)
  {
  }

  /** A sink whose verbosity reaches every gate shows the whole log. */
  lemma {:induction false} ShownAll(log: seq<Record>, verbosity: nat)
    requires forall x :: x in log ==> x.minVerbosity <= verbosity
    ensures Shown(log, verbosity) == log
  {
    if log != [] {
      assert log[0] in log;
      assert forall x :: x in log[1..] ==> x in log;
      ShownAll(log[1..], verbosity);
    }
  }

  /** A sink below every gate of the log shows none of it. */
  lemma {:induction false} ShownNone(log: seq<Record>, verbosity: nat)
    requires forall x :: x in log ==> x.minVerbosity > verbosity
    ensures Shown(log, verbosity) == []
  {
    if log != [] {
      assert log[0] in log;
      assert forall x :: x in log[1..] ==> x in log;
      ShownNone(log[1..], verbosity);
    }
  }

  /** A quieter sink shows what a louder one shows, filtered again: what
      the louder sink drops, the quieter one drops too. */
  lemma {:induction false} ShownMonotone(log: seq<Record>, low: nat, high: nat)
    requires low <= high
    ensures Shown(Shown(log, high), low) == Shown(log, low)
  {
    if log != [] {
      var head := if log[0].minVerbosity <= high then [log[0]] else [];
      ShownAppend(head, Shown(log[1..], high), low);
      ShownMonotone(log[1..], low, high);
    }
  }
}

=== FILE: text.dfy ===
/** Python's string-level operations the callback relies on: `%s` of an
    integer, and the `in` operator on a string, a list or a dict. */
module Strings {
  import opened Data

  function DigitChar(d: nat): (c: char)
    requires d < 10
    ensures '0' <= c <= '9' && c as int - '0' as int == d
  {
    ('0' as int + d) as char
  }

  predicate IsDigit(c: char) {
    '0' <= c <= '9'
  }

  /** Decimal digits of a natural number, most significant first. */
  function NatToString(n: nat): (s: string)
    ensures |s| >= 1
    ensures forall i :: 0 <= i < |s| ==> IsDigit(s[i])
    ensures |s| > 1 ==> s[0] != '0'
    ensures s[0] == '0' <==> n == 0
    decreases n
  {
    if n < 10 then [DigitChar(n)] else NatToString(n / 10) + [DigitChar(n % 10)]
  }

  /** Value of a string of decimal digits. */
  function ParseNat(s: string): int
    requires forall i :: 0 <= i < |s| ==> IsDigit(s[i])
  {
    if s == [] then 0 else ParseNat(s[..|s| - 1]) * 10 + (s[|s| - 1] as int - '0' as int)
  }

  /** An optional minus sign followed by at least one decimal digit. */
  predicate IsDecimal(s: string) {
    |s| >= 1 &&
    (s[0] == '-' ==> |s| >= 2 && forall i :: 1 <= i < |s| ==> IsDigit(s[i])) &&
    (s[0] != '-' ==> forall i :: 0 <= i < |s| ==> IsDigit(s[i]))
  }

  /** Python's `str(i)` / `'%s' % i` for an integer. */
  function IntToString(i: int): (s: string)
    ensures IsDecimal(s)
    ensures s[0] == '-' <==> i < 0
    ensures s[0] != '-' && |s| > 1 ==> s[0] != '0'
    ensures s[0] == '-' ==> s[1] != '0'
  {
    if i < 0 then "-" + NatToString(-i) else NatToString(i)
  }

  function ParseInt(s: string): int
    requires IsDecimal(s)
  {
    if s[0] == '-' then -ParseNat(s[1..]) else ParseNat(s)
  }

  lemma {:induction false} NatRoundTrip(n: nat)
    ensures ParseNat(NatToString(n)) == n
    decreases n
  {
    if n >= 10 {
      var s := NatToString(n);
      assert s[..|s| - 1] == NatToString(n / 10);
      NatRoundTrip(n / 10);
    }
  }

  /** The decimal rendering of an integer is faithful: it parses back to
      the same integer, so distinct return codes print differently. */
  lemma IntRoundTrip(i: int)
    ensures ParseInt(IntToString(i)) == i
  {
    if i < 0 {
      assert IntToString(i)[1..] == NatToString(-i);
      NatRoundTrip(-i);
    } else {
      NatRoundTrip(i);
    }
  }

  /** `needle` occurs in `hay` starting at index `i`. */
  ghost predicate OccursAt(needle: string, hay: string, i: int) {
    0 <= i && i + |needle| <= |hay| && hay[i..i + |needle|] == needle
  }

  /** Python's `needle in hay` for two strings, scanning from the left. */
  predicate IsSubstring(needle: string, hay: string)
    decreases |hay|
  {
    |needle| <= |hay| &&
    (hay[..|needle|] == needle || (|hay| > 0 && IsSubstring(needle, hay[1..])))
  }

  /** The scan agrees with the definition of a substring. */
  lemma {:induction false} IsSubstringIff(needle: string, hay: string)
    ensures IsSubstring(needle, hay) <==> exists i :: OccursAt(needle, hay, i)
    decreases |hay|
  {
    if IsSubstring(needle, hay) {
      if hay[..|needle|] == needle {
        assert OccursAt(needle, hay, 0);
      } else {
        IsSubstringIff(needle, hay[1..]);
        var j :| OccursAt(needle, hay[1..], j);
        assert hay[1..][j..j + |needle|] == hay[j + 1..j + 1 + |needle|];
        assert OccursAt(needle, hay, j + 1);
      }
    }
    if exists i :: OccursAt(needle, hay, i) {
      var i :| OccursAt(needle, hay, i);
      if i > 0 && hay[..|needle|] != needle {
        assert hay[1..][i - 1..i - 1 + |needle|] == hay[i..i + |needle|];
        assert OccursAt(needle, hay[1..], i - 1);
        IsSubstringIff(needle, hay[1..]);
      }
    }
  }

  /** The values Python's `in` operator accepts on its right: strings,
      lists and dicts. On None, booleans and integers it raises TypeError. */
  predicate SupportsIn(v: Value) {
    v.Str? || v.List? || v.Dict?
  }

  /** Python's `needle in v` for a string needle: substring on a string,
      element equality on a list, key membership on a dict. */
  predicate PyIn(needle: string, v: Value)
    requires SupportsIn(v)
  {
    match v
    case Str(s) => IsSubstring(needle, s)
    case List(xs) => Str(needle) in xs
    case Dict(m) => needle in m
  }
}
